=== FILE: README.md ===
# Volleyball court payment split — a Dafny model

A group rents a volleyball court, plays, and splits the rental ("court cost")
among the players in proportion to the hours each one stayed. Each player pays
the organiser's Pix key and may attach a receipt; once every player has paid,
the match is complete. This project models, in Dafny, the logic behind that:

- `calculations.dfy` (module `Calculations`): the `Player` and `Match` records,
  the proportional split rounded to cents, the derivation of a match's
  `pending`/`complete` status from its players' `paid` flags (with the
  completion date it stamps and clears), the payment-progress percentage, and
  the constructors for a new player and a new match.
- `dbservice.dfy` (module `DbService`): the match repository. The code keeps
  all matches as one list under one storage key; here that list is a `Store`
  value (`seq<Match>`) passed in and returned. Reading by id, creating,
  updating, deleting, recording a player's payment and the status /
  unpaid-by-player filters are pure functions; the two errors the code throws
  (unknown match, unknown player) are `Failure` results, and a failed operation
  returns no new store.
- `newmatch.dfy` (module `NewMatch`): the new-match form's validation and its
  pure state updaters (duration buttons, add / remove / edit a player).
- `jsbuiltins.dfy` (module `JsBuiltins`): `Math.round`, two-decimal rounding as
  `Math.round(x * 100) / 100`, and `String.prototype.trim` with ECMAScript's
  whitespace set.
- `seqs.dfy` (module `Seqs`): `Array.prototype.filter` and `findIndex` over
  sequences, with order preservation stated as a subsequence relation.
- `wrappers.dfy` (module `Wrappers`): `Option` (an optional TypeScript field)
  and `Result` (a promise that resolves or rejects).
- `scenarios.dfy` (module `Scenarios`): a scenario on fixed data — a 100-unit court
  split 1 h / 3 h into 25 / 75, both players pay, and the filters see the match
  complete.

Money and hours are exact `real`s. The clock (`new Date().toISOString()`) and
the UUID generator are parameters (`now`, `id`).

Behaviours of the code that the model keeps as they are:

- An empty player list counts as "everyone paid" (`Array.prototype.every` is
  vacuously true), so deriving the status of a pending match without players
  makes it complete (`Calculations.EmptyPendingMatchCompletes`,
  `Calculations.NewMatchDefaults`).
- Deleting an unknown id is a silent no-op, and creating a match does not
  check whether its id is already taken (`DbService.CreateWithTakenIdIsShadowed`).
- The form's paid checkbox sets a player's `paid` flag through the generic
  player edit, without a payment date, and saving stores that player as is.
  So "payment date present iff paid" holds for matches saved without a
  pre-ticked payment and kept up by the payment operation
  (`DbService.UpdatePlayerPaymentKeepsStoreSettled`), but it is not an
  invariant of every store the program can produce
  (`Scenarios.PreTickedPaymentUnsettlesStore`).

## Model

| member | source | states |
|---|---|---|
| `JsBuiltins.RoundCents` | src/utils/calculations.ts:38 | Rounding to two decimals gives a whole number of cents within half a cent of the input (more than −0.005, at most +0.005). |
| `JsBuiltins.TrimEmptyIffBlank` | src/components/NewMatch.tsx:156 | `s.trim()` is empty (falsy) exactly when every character of `s` is ECMAScript whitespace. |
| `JsBuiltins.Round` | src/utils/calculations.ts:85 | `Math.round` gives the integer within (x − 0.5, x + 0.5], so halves round up. |
| `Seqs.Filter` | src/utils/dbService.ts:95 | `filter` keeps exactly the elements satisfying the predicate, never more than there were, as a subsequence of the input (order kept). |
| `Seqs.FindIndex` | src/utils/dbService.ts:77 | `findIndex` gives the first position satisfying the predicate, and is absent (−1) exactly when no element does. |
| `Calculations.CalculatePlayerAmounts` | src/utils/calculations.ts:29-50 | Zero total hours (also no players) returns the match unchanged; otherwise the same players in the same order with only `amount` changed, each the cent-rounded proportional share and within half a cent of it; match-level fields unchanged. |
| `Calculations.AllocatePreservesHours` | src/utils/calculations.ts:35-44 | Allocation leaves every player's hours, hence their total, as they were. |
| `Calculations.AllocationSumWithinTolerance` | src/utils/calculations.ts:35-44 | With non-zero total hours the amounts add up to the court cost within 0.005 per player. |
| `Calculations.CalculatePlayerAmountsIdempotent` | src/utils/calculations.ts:29-50 | Calculating the amounts twice gives the same match as calculating them once. |
| `Calculations.UpdateMatchStatus` | src/utils/calculations.ts:55-77 | Result is complete iff every player has paid; only status and completion date may change; pending→complete stamps `now`, complete→pending clears the date, and no status change means no change at all. |
| `Calculations.UpdateMatchStatusIdempotent` | src/utils/calculations.ts:55-77 | A second derivation, at any later time, changes nothing. |
| `Calculations.UpdateMatchStatusEstablishesInvariant` | src/utils/calculations.ts:56-74 | After derivation the status agrees with the paid flags, and "completion date present iff complete" is preserved. |
| `Calculations.EmptyPendingMatchCompletes` | src/utils/calculations.ts:56-65 | A pending match with no players becomes complete with completion date `now`. |
| `Calculations.PaidCount` | src/utils/calculations.ts:84 | The number of paid players is the length of the list filtered to paid players; it is at most the number of players, equals it iff all paid, and is 0 iff none paid. |
| `Calculations.GetPaymentProgress` | src/utils/calculations.ts:82-86 | 0 for no players; always in [0, 100]; within 0.5 of the exact paid percentage; 100 when all paid, 0 when none paid. |
| `Calculations.ProgressHundredWithUnpaidPlayer` | src/utils/calculations.ts:85 | With 199 of 200 players paid the progress already reads 100 although not everyone has paid. |
| `Calculations.CreateNewPlayer` | src/utils/calculations.ts:91-96 | A new player has the given id, name and hours, is unpaid, and has no payment date, receipt or amount. |
| `Calculations.CreateNewMatch` | src/utils/calculations.ts:101-109 | A new match is pending, dated `now`, has no players, cost 0, duration 1, an empty Pix key and no completion date. |
| `Calculations.NewMatchDefaults` | src/utils/calculations.ts:101-109 | A new match has nothing to split, and deriving its status completes it immediately. |
| `DbService.GetMatchById` | src/utils/dbService.ts:56-59 | Absent iff no stored match has the id; otherwise the first stored match with that id. |
| `DbService.CreateMatch` | src/utils/dbService.ts:62-72 | Appends exactly one match at the end, keeping earlier entries; the appended and returned match is `updateMatchStatus` of the input (status derived, completion date stamped or cleared). |
| `DbService.CreateThenGet` | src/utils/dbService.ts:56-72 | Creating under a fresh id and reading it back gives the stored match with the same id, cost, duration, Pix key and players. |
| `DbService.CreateWithTakenIdIsShadowed` | src/utils/dbService.ts:56-72 | With the id already taken, reading it back after a create still finds the older match. |
| `DbService.CreateMatchKeepsStoreSettled` | src/utils/dbService.ts:62-72 | Creating a match whose dates are consistent keeps every stored match's status, completion date and payment dates consistent. |
| `DbService.UpdateMatch` | src/utils/dbService.ts:75-90 | Unknown id fails with "match not found"; otherwise the first match with the id is replaced by the status-derived input, all other positions and the length unchanged. |
| `DbService.UpdateThenGet` | src/utils/dbService.ts:75-90 | After a successful update, reading the id back gives the updated match. |
| `DbService.DeleteMatch` | src/utils/dbService.ts:93-97 | Keeps, in order and with their multiplicity, exactly the matches with a different id; an unknown id leaves the store unchanged. |
| `DbService.DeleteMatchIdempotent` | src/utils/dbService.ts:93-97 | Deleting twice equals deleting once. |
| `DbService.DeleteThenGetAndPay` | src/utils/dbService.ts:93-118 | After a delete the id reads as absent and a payment against it fails with "match not found". |
| `DbService.SetPayment` | src/utils/dbService.ts:120-128 | The paid flag is set; the payment date is `now` when paid and cleared when not; the receipt is the new one when paid with a non-empty receipt, kept when paid without one, cleared when unpaid; other fields unchanged. |
| `DbService.UpdatePlayerPayment` | src/utils/dbService.ts:100-137 | Unknown match fails first, then unknown player; otherwise only the first matching player is updated, the status is re-derived, and the match is stored back at its position and returned. |
| `Scenarios.PreTickedPaymentUnsettlesStore` | src/components/NewMatch.tsx:85-116 | A new match with one added player whose paid box is ticked in the form, then saved, gives a store that is not settled: that player is paid without a payment date, though the match is still complete exactly when it has a completion date. |
| `DbService.UpdatePlayerPaymentKeepsStoreSettled` | src/utils/dbService.ts:120-136 | A successful payment update keeps every stored match's status, completion date and payment dates consistent. |
| `DbService.UnpayingReopensMatch` | src/utils/dbService.ts:120-131 | For any store whose matches are complete exactly when they carry a completion date (settled or not, e.g. one holding a pre-ticked payment), marking a player unpaid leaves the match pending with no completion date, and the player with neither payment date nor receipt. |
| `DbService.PaidPlayerNoLongerOwes` | src/utils/dbService.ts:100-155 | After a player with a unique id in the match pays, the match no longer passes that player's unpaid filter. |
| `DbService.GetFilteredMatches` | src/utils/dbService.ts:140-160 | Returns an order-preserving subsequence holding exactly the passing matches with their multiplicity: by status, by an unpaid player with that id, or everything for `all` and for a missing or empty player id. |
| `DbService.StatusFiltersPartition` | src/utils/dbService.ts:147-150 | The pending and complete filters together return as many matches as are stored. |
| `NewMatch.ValidateMatch` | src/components/NewMatch.tsx:147-179 | Null iff the match is valid; otherwise the first failing check, in the order cost, duration, Pix key, player count, then per player name, positive hours, hours within duration. |
| `NewMatch.PositiveHoursSum` | src/components/NewMatch.tsx:169-171 | Players with positive hours have a positive total. |
| `NewMatch.ValidMatchGetsAmounts` | src/components/NewMatch.tsx:181-197 | A valid match has positive total hours, so calculating at save time gives every player an amount. |
| `NewMatch.NextTotalHours` | src/components/NewMatch.tsx:54-58 | + adds half an hour; − removes half an hour but never goes below half an hour. |
| `NewMatch.ClampPlayers` | src/components/NewMatch.tsx:61-64 | Every player's hours end at most the limit; players already within it are unchanged, the others are set to the limit. |
| `NewMatch.HandleTotalHoursChange` | src/components/NewMatch.tsx:54-72 | The duration moves as above; players within it are unchanged, players over it are set to exactly the new duration, only hours change, and other match fields are unchanged. |
| `NewMatch.IncrementThenDecrementRestores` | src/components/NewMatch.tsx:54-72 | + then − restores a match of at least half an hour whose players are within its duration. |
| `NewMatch.HandleAddPlayer` | src/components/NewMatch.tsx:85-90 | Appends one default player (empty name, one hour, unpaid, no payment date, receipt or amount) at the end, keeping the others and the match fields. |
| `NewMatch.HandleRemovePlayer` | src/components/NewMatch.tsx:92-97 | Keeps, in order and with their multiplicity, exactly the players with a different id; match fields unchanged. |
| `NewMatch.AddThenRemoveRestores` | src/components/NewMatch.tsx:85-97 | Adding a player under a fresh id and removing that id gives back the original match. |
| `NewMatch.AddedPlayerKeepsMatchPending` | src/components/NewMatch.tsx:85-90 | After adding a player, deriving the status gives pending, since the new player has not paid. |
| `NewMatch.HandlePlayerChange` | src/components/NewMatch.tsx:99-116 | Every player with the id gets the edit; all other players and all match fields are unchanged. |
| `NewMatch.PlayerChangeOfAbsentPlayer` | src/components/NewMatch.tsx:99-116 | Editing an id no player has changes nothing. |
| `NewMatch.PlayerChangeIdempotent` | src/components/NewMatch.tsx:99-116 | Applying the same edit twice equals applying it once, an id edit included. |
| `Scenarios.SampleSplit` | src/utils/calculations.ts:29-50 | Cost 100 split over 1 h and 3 h gives 25 and 75. |
| `Scenarios.SplitAndSettle` | src/utils/dbService.ts:62-159 | The stored sample match stays pending after one payment and becomes complete, stamped with the second payment's time, after both; then only the complete filter returns it. |

## Left out

- Persistence plumbing: `loadMatches`/`saveMatches`, JSON encoding, the storage key, the swallowed save error and its toast, `initDatabaseConnection`. The store is the decoded list itself, and the model assumes encoding and decoding round-trip.
- `getMatches`: after a 300 ms delay it returns the whole list, which in this model is the `Store` value itself.
- Async behaviour: every repository call is one sequential step; there is no concurrency in the code to model.
- Clock and randomness: `now` and `id` are parameters. `updatePlayerPayment` reads the clock twice (payment date, then completion date); both reads are the one `now` here.
- IEEE floating point: money and hours are exact reals, so binary rounding error of the code's `number` arithmetic is not modelled.
- `NewMatch.ValidateMatch`: returns the kind of failure, not the message text shown to the user.
- `NewMatch.HandleTotalHoursChange`: the code computes the new duration from the rendered state and applies it inside an updater of the latest state; the model has one state, so it does not cover the two being different.
- `NewMatch.HandlePlayerChange`: the code's `value: any` can put a value of the wrong type into a field; the model's edits are typed.
- The form's parsing `onChange` handlers (court cost, duration, date and time), which depend on `parseFloat`, `NaN` and date formatting. The duration text input (src/components/NewMatch.tsx:321-328) sets any parsed value of at least 0.5 and does not cap the players' hours as `NewMatch.HandleTotalHoursChange` does, so a shorter typed-in duration can leave players over it until `NewMatch.ValidateMatch` rejects the match.
- `handlePixKeyChange`: a plain field setter that assigns the typed text to `pixKey`; it carries no logic beyond the assignment.
- Presentation components (match card and details, history search and player picker, receipt upload, pending-payments dialog, progress bar, header, pages); the history page's free-text search depends on locale date formatting and number printing.
- The SQL Server connection the code mentions: it does not exist; only the localStorage mock is implemented.

=== FILE: calculations.dfy ===
/** Players, matches and the pure payment logic over them: splitting the court
    cost in proportion to hours played, deriving a match's status from its
    players' payment flags, the payment progress percentage, and the
    constructors for new players and matches.

    Money and hours are exact reals; the clock and the UUID generator are
    parameters (`now`, `id`). */
module Calculations {
  import opened Wrappers
  import opened JsBuiltins
  import opened Seqs

  /** An ISO-8601 timestamp as produced by `Date.prototype.toISOString`. */
  type Timestamp = string

  datatype Status = Pending | Complete

  datatype Player = Player(
    id: string,
    name: string,
    hoursPlayed: real,
    paid: bool,
    paymentDate: Option<Timestamp>,
    receiptUrl: Option<string>,
    amount: Option<real>)

  datatype Match = Match(
    id: string,
    courtCost: real,
    totalHours: real,
    date: Timestamp,
    pixKey: string,
    players: seq<Player>,
    status: Status,
    completionDate: Option<Timestamp>)

  /** `players.every(p => p.paid)`: vacuously true of no players. */
  predicate AllPaid(players: seq<Player>) {
    forall i :: 0 <= i < |players| ==> players[i].paid
  }

  predicate NonePaid(players: seq<Player>) {
    forall i :: 0 <= i < |players| ==> !players[i].paid
  }

  /** The match's status agrees with its players' payment flags. */
  predicate StatusDerived(m: Match) {
    m.status == Complete <==> AllPaid(m.players)
  }

  /** A completion date is recorded exactly while the match is complete. */
  predicate CompletionConsistent(m: Match) {
    m.status == Complete <==> m.completionDate.Some?
  }

  /** A payment date is recorded exactly while the player is marked paid. */
  predicate PaymentConsistent(p: Player) {
    p.paid <==> p.paymentDate.Some?
  }

  // ---------------------------------------------------------------------------
  // Allocation

  /** `players.reduce((sum, p) => sum + p.hoursPlayed, 0)`. */
  function TotalPlayerHours(players: seq<Player>): real {
    if |players| == 0 then 0.0 else players[0].hoursPlayed + TotalPlayerHours(players[1..])
  }

  /** Sum of the amounts assigned so far; a player without one contributes 0. */
  function TotalAmounts(players: seq<Player>): real {
    if |players| == 0 then 0.0 else players[0].amount.GetOr(0.0) + TotalAmounts(players[1..])
  }

  /** The exact, unrounded share of `cost` owed for `hours` out of `total`. */
  function ExactShare(hours: real, total: real, cost: real): real
    requires total != 0.0
  {
    hours / total * cost
  }

  /** Each player with `amount` set to the rounded proportional share. */
  function Allocate(players: seq<Player>, total: real, cost: real): (r: seq<Player>)
    requires total != 0.0
    ensures |r| == |players|
    ensures forall i :: 0 <= i < |players| ==>
      r[i] == players[i].(amount := Some(RoundCents(ExactShare(players[i].hoursPlayed, total, cost))))
  {
    if |players| == 0 then []
    else
      [players[0].(amount := Some(RoundCents(ExactShare(players[0].hoursPlayed, total, cost))))]
      + Allocate(players[1..], total, cost)
  }

  /** `calculatePlayerAmounts`: splits the court cost among the players in
      proportion to their hours, each share rounded to cents. With zero total
      hours (including no players at all) the match comes back unchanged. */
  function CalculatePlayerAmounts(m: Match): (r: Match)
    ensures TotalPlayerHours(m.players) == 0.0 ==> r == m
    ensures r.(players := m.players) == m
    ensures |r.players| == |m.players|
    ensures forall i :: 0 <= i < |m.players| ==> r.players[i].(amount := m.players[i].amount) == m.players[i]
    ensures TotalPlayerHours(m.players) != 0.0 ==> forall i :: 0 <= i < |m.players| ==>
      var exact := ExactShare(m.players[i].hoursPlayed, TotalPlayerHours(m.players), m.courtCost);
      && r.players[i].amount == Some(RoundCents(exact))
      && exact - 0.005 < r.players[i].amount.value <= exact + 0.005
  {
    var total := TotalPlayerHours(m.players);
    if total == 0.0 then m
    else m.(players := Allocate(m.players, total, m.courtCost))
  }

  /** Allocation never touches hours, so the total it divides by is preserved. */
  lemma {:induction false} AllocatePreservesHours(players: seq<Player>, total: real, cost: real)
    requires total != 0.0
    ensures TotalPlayerHours(Allocate(players, total, cost)) == TotalPlayerHours(players)
    decreases |players|
  {
    if |players| > 0 {
      AllocatePreservesHours(players[1..], total, cost);
      var r := Allocate(players, total, cost);
      assert r[1..] == Allocate(players[1..], total, cost);
    }
  }

  /** Each rounded share is off by at most half a cent, so the shares of a
      sequence of players add up to their exact total share up to half a cent
      per player; and the exact shares add up to the hours' share of the cost. */
  lemma {:induction false} AllocateSumBound(players: seq<Player>, total: real, cost: real)
    requires total != 0.0
    ensures var err := TotalAmounts(Allocate(players, total, cost)) - ExactShare(TotalPlayerHours(players), total, cost);
      -0.005 * |players| as real <= err <= 0.005 * |players| as real
    decreases |players|
  {
    if |players| > 0 {
      var r := Allocate(players, total, cost);
      var rest := players[1..];
      AllocateSumBound(rest, total, cost);
      assert r[1..] == Allocate(rest, total, cost);
      var h := players[0].hoursPlayed;
      var s := TotalPlayerHours(rest);
      var e := ExactShare(h, total, cost);
      var a := r[0].amount.value;
      assert e - 0.005 < a <= e + 0.005;
      assert TotalAmounts(r) == a + TotalAmounts(r[1..]);
      ExactShareAdditive(h, s, total, cost);
    }
  }

  /** Shares add up as the hours do. */
  lemma ExactShareAdditive(h: real, s: real, total: real, cost: real)
    requires total != 0.0
    ensures ExactShare(h + s, total, cost) == ExactShare(h, total, cost) + ExactShare(s, total, cost)
  {
    assert (h + s) / total == h / total + s / total;
  }


  /** The rounded amounts add up to the court cost, within half a cent per player. */
  lemma AllocationSumWithinTolerance(m: Match)
    requires TotalPlayerHours(m.players) != 0.0
    ensures var n := |m.players| as real;
      m.courtCost - 0.005 * n <= TotalAmounts(CalculatePlayerAmounts(m).players) <= m.courtCost + 0.005 * n
  {
    var total := TotalPlayerHours(m.players);
    AllocateSumBound(m.players, total, m.courtCost);
    assert ExactShare(total, total, m.courtCost) == m.courtCost;
  }

  /** Recalculating changes nothing: hours and cost are left as they were. */
  lemma CalculatePlayerAmountsIdempotent(m: Match)
    ensures CalculatePlayerAmounts(CalculatePlayerAmounts(m)) == CalculatePlayerAmounts(m)
  {
    var total := TotalPlayerHours(m.players);
    if total != 0.0 {
      AllocatePreservesHours(m.players, total, m.courtCost);
    }
  }

  // ---------------------------------------------------------------------------
  // Status derivation

  /** `updateMatchStatus`: re-derives the status from the players' payment
      flags. A pending match whose players have all paid becomes complete,
      stamped with `now`; a complete match with an unpaid player goes back to
      pending and loses its completion date; otherwise nothing changes. */
  function UpdateMatchStatus(m: Match, now: Timestamp): (r: Match)
    ensures r.status == Complete <==> AllPaid(m.players)
    ensures r.(status := m.status, completionDate := m.completionDate) == m
    ensures m.status == Pending && r.status == Complete ==> r.completionDate == Some(now)
    ensures m.status == Complete && r.status == Pending ==> r.completionDate == None
    ensures r.status == m.status ==> r == m
  {
    var allPaid := AllPaid(m.players);
    match m.status
    case Pending => if allPaid then m.(status := Complete, completionDate := Some(now)) else m
    case Complete => if !allPaid then m.(status := Pending, completionDate := None) else m
  }

  /** Deriving the status twice is deriving it once, whatever the clock says the second time. */
  lemma UpdateMatchStatusIdempotent(m: Match, now: Timestamp, later: Timestamp)
    ensures UpdateMatchStatus(UpdateMatchStatus(m, now), later) == UpdateMatchStatus(m, now)
  {
  }

  /** After derivation the status agrees with the payment flags, and the
      completion date tracks the status whenever it did before. */
  lemma UpdateMatchStatusEstablishesInvariant(m: Match, now: Timestamp)
    ensures StatusDerived(UpdateMatchStatus(m, now))
    ensures CompletionConsistent(m) ==> CompletionConsistent(UpdateMatchStatus(m, now))
  {
  }

  /** With no players every player has paid, so a pending match completes. */
  lemma EmptyPendingMatchCompletes(m: Match, now: Timestamp)
    requires m.players == [] && m.status == Pending
    ensures UpdateMatchStatus(m, now).status == Complete
    ensures UpdateMatchStatus(m, now).completionDate == Some(now)
  {
  }

  // ---------------------------------------------------------------------------
  // Payment progress

  /** `players.filter(p => p.paid).length`. */
  function PaidCount(players: seq<Player>): (n: nat)
    ensures n <= |players|
    ensures n == |players| <==> AllPaid(players)
    ensures n == 0 <==> NonePaid(players)
    ensures n == |Filter(players, (p: Player) => p.paid)|
  {
    if |players| == 0 then 0
    else
      var rest := PaidCount(players[1..]);
      assert forall i :: 1 <= i < |players| ==> players[i] == players[1..][i - 1];
      if players[0].paid then 1 + rest else rest
  }

  /** `getPaymentProgress`: the percentage of players who have paid, rounded
      to a whole number with `Math.round`; 0 for a match without players. */
  function GetPaymentProgress(m: Match): (r: int)
    ensures |m.players| == 0 ==> r == 0
    ensures 0 <= r <= 100
    ensures |m.players| > 0 ==>
      var exact := PaidCount(m.players) as real / |m.players| as real * 100.0;
      exact - 0.5 < r as real <= exact + 0.5
    ensures |m.players| > 0 && AllPaid(m.players) ==> r == 100
    ensures NonePaid(m.players) ==> r == 0
  {
    if |m.players| == 0 then 0
    else
      var paid := PaidCount(m.players);
      PercentBounds(paid, |m.players|);
      Round(paid as real / |m.players| as real * 100.0)
  }

  /** A part of a positive whole is between 0 and 100 percent of it, and is
      exactly 100 percent when it is the whole. */
  lemma PercentBounds(part: nat, whole: nat)
    requires 0 < whole && part <= whole
    ensures 0.0 <= part as real / whole as real * 100.0 <= 100.0
    ensures part == whole ==> part as real / whole as real * 100.0 == 100.0
  {
  }

  /** Rounding lets the progress read 100 while a player still owes: 199 paid
      out of 200 is 99.5%, which `Math.round` takes to 100. */
  lemma ProgressHundredWithUnpaidPlayer(m: Match)
    requires |m.players| == 200 && PaidCount(m.players) == 199
    ensures GetPaymentProgress(m) == 100
    ensures !AllPaid(m.players)
  {
  }

  // ---------------------------------------------------------------------------
  // Constructors

  /** The defaults of `createNewPlayer`'s optional parameters. */
  const DefaultPlayerName: string := ""
  const DefaultHoursPlayed: real := 1.0

  /** `createNewPlayer`: a player who has not paid and has no amount, payment
      date or receipt yet. */
  function CreateNewPlayer(id: string, name: string, hoursPlayed: real): (p: Player)
    ensures p.id == id && p.name == name && p.hoursPlayed == hoursPlayed
    ensures !p.paid && p.paymentDate == None && p.receiptUrl == None && p.amount == None
    ensures PaymentConsistent(p)
  {
    Player(id, name, hoursPlayed, false, None, None, None)
  }

  /** `createNewMatch`: an empty pending match dated `now`, costing nothing,
      one hour long, with no Pix key. */
  function CreateNewMatch(id: string, now: Timestamp): (m: Match)
    ensures m.id == id && m.date == now
    ensures m.status == Pending && m.completionDate == None && m.players == []
    ensures m.courtCost == 0.0 && m.totalHours == 1.0 && m.pixKey == ""
    ensures CompletionConsistent(m)
  {
    Match(id, 0.0, 1.0, now, "", [], Pending, None)
  }

  /** A fresh match has no hours to split, and deriving its status completes
      it at once, since an empty player list counts as all paid. */
  lemma NewMatchDefaults(id: string, now: Timestamp, later: Timestamp)
    ensures CalculatePlayerAmounts(CreateNewMatch(id, now)) == CreateNewMatch(id, now)
    ensures UpdateMatchStatus(CreateNewMatch(id, now), later).status == Complete
  {
  }
}

=== FILE: dbservice.dfy ===
/** The match repository: every match is kept in one list stored under a
    single key, and each operation reads the whole list, changes it and writes
    it back. Here the list is an explicit `Store` value passed in and returned;
    an operation that rejects in the code returns `Failure`, and in that case
    nothing is written. */
module DbService {
  import opened Wrappers
  import opened Seqs
  import opened Calculations

  /** The persisted matches, in insertion order. */
  type Store = seq<Match>

  /** The two errors the repository throws. */
  datatype DbError = MatchNotFound(matchId: string) | PlayerNotFound(playerId: string)

  /** The filter options of `getFilteredMatches`. */
  datatype MatchFilter = AllMatches | PendingMatches | CompleteMatches | UnpaidByPlayer

  /** JavaScript truthiness of an optional string: present and non-empty. */
  predicate Truthy(s: Option<string>) {
    s.Some? && s.value != ""
  }

  /** Position `k` holds the first match with identifier `id`. */
  predicate IsFirstMatch(store: Store, k: int, id: string) {
    0 <= k < |store| && store[k].id == id && forall j :: 0 <= j < k ==> store[j].id != id
  }

  /** Position `k` holds the first player with identifier `id`. */
  predicate IsFirstPlayer(players: seq<Player>, k: int, id: string) {
    0 <= k < |players| && players[k].id == id && forall j :: 0 <= j < k ==> players[j].id != id
  }

  predicate HasMatch(store: Store, id: string) {
    exists k :: 0 <= k < |store| && store[k].id == id
  }

  /** Player `playerId` is in `m` and has not paid. */
  predicate Owes(m: Match, playerId: string) {
    exists i :: 0 <= i < |m.players| && m.players[i].id == playerId && !m.players[i].paid
  }

  /** Every stored match satisfies the settlement invariants: its status agrees
      with its players' flags, it has a completion date exactly when complete,
      and each player has a payment date exactly when paid. */
  predicate Settled(m: Match) {
    && StatusDerived(m)
    && CompletionConsistent(m)
    && forall i :: 0 <= i < |m.players| ==> PaymentConsistent(m.players[i])
  }

  predicate StoreSettled(store: Store) {
    forall k :: 0 <= k < |store| ==> Settled(store[k])
  }

  /** `getMatchById`: the first stored match with identifier `id`, if any. */
  function GetMatchById(store: Store, id: string): (r: Option<Match>)
    ensures r.None? <==> !HasMatch(store, id)
    ensures forall k :: IsFirstMatch(store, k, id) ==> r == Some(store[k])
  {
    match FindIndex(store, (m: Match) => m.id == id)
    case None => None
    case Some(k) => Some(store[k])
  }

  /** `createMatch`: derives the match's status and appends it, without
      checking whether its identifier is already taken. */
  function CreateMatch(store: Store, m: Match, now: Timestamp): (r: (Store, Match))
    ensures |r.0| == |store| + 1 && r.0[..|store|] == store && r.0[|store|] == r.1
    ensures r.1 == UpdateMatchStatus(m, now)
    ensures r.1.(status := m.status, completionDate := m.completionDate) == m
    ensures StatusDerived(r.1)
  {
    var stored := UpdateMatchStatus(m, now);
    (store + [stored], stored)
  }

  /** `updateMatch`: replaces the first match with the same identifier by the
      given one, status re-derived; rejects when there is none. */
  function UpdateMatch(store: Store, m: Match, now: Timestamp): (r: Result<(Store, Match), DbError>)
    ensures !HasMatch(store, m.id) ==> r == Failure(MatchNotFound(m.id))
    ensures forall k :: IsFirstMatch(store, k, m.id) ==>
      r.Success? && r.value.0 == store[k := r.value.1] && r.value.1 == UpdateMatchStatus(m, now)
  {
    match FindIndex(store, (x: Match) => x.id == m.id)
    case None => Failure(MatchNotFound(m.id))
    case Some(k) =>
      var updated := UpdateMatchStatus(m, now);
      Success((store[k := updated], updated))
  }

  /** `deleteMatch`: drops every match with identifier `id`, keeping the rest in
      order; an unknown identifier leaves the store as it was. */
  function DeleteMatch(store: Store, id: string): (r: Store)
    ensures IsSubsequence(r, store)
    ensures forall m :: m in r <==> m in store && m.id != id
    ensures forall m: Match :: m.id != id ==> multiset(r)[m] == multiset(store)[m]
    ensures !HasMatch(store, id) ==> r == store
  {
    var r := Filter(store, (m: Match) => m.id != id);
    FilterMultiset(store, (m: Match) => m.id != id);
    if !HasMatch(store, id) then
      FilterAllKept(store, (m: Match) => m.id != id);
      r
    else r
  }

  /** The update `updatePlayerPayment` makes to one player: the paid flag is
      set, the payment date is `now` exactly when paid, and the receipt is the
      new one when paid with a non-empty receipt, the old one when paid
      without, and dropped when unpaid. */
  function SetPayment(p: Player, paid: bool, receiptUrl: Option<string>, now: Timestamp): (q: Player)
    ensures q.paid == paid
    ensures paid ==> q.paymentDate == Some(now)
    ensures !paid ==> q.paymentDate == None && q.receiptUrl == None
    ensures paid && Truthy(receiptUrl) ==> q.receiptUrl == receiptUrl
    ensures paid && !Truthy(receiptUrl) ==> q.receiptUrl == p.receiptUrl
    ensures q.(paid := p.paid, paymentDate := p.paymentDate, receiptUrl := p.receiptUrl) == p
    ensures PaymentConsistent(q)
  {
    var paymentDate := if paid then Some(now) else None;
    p.(paid := paid, paymentDate := paymentDate,
       receiptUrl := if paid then (if Truthy(receiptUrl) then receiptUrl else p.receiptUrl) else None)
  }

  /** `after` is `before` with player `pi` updated by `SetPayment`, every other
      player untouched, and the status re-derived. */
  predicate PaymentRecorded(before: Match, pi: nat, paid: bool, receiptUrl: Option<string>,
                            now: Timestamp, after: Match)
    requires pi < |before.players|
  {
    && |after.players| == |before.players|
    && after.players[pi] == SetPayment(before.players[pi], paid, receiptUrl, now)
    && (forall i :: 0 <= i < |before.players| && i != pi ==> after.players[i] == before.players[i])
    && after == UpdateMatchStatus(before.(players := after.players), now)
  }

  /** `updatePlayerPayment`: records a payment (or its removal) for one player
      of one match, re-derives the match's status, stores the match back at
      its position and returns it. Rejects an unknown match, then an unknown
      player. */
  function UpdatePlayerPayment(store: Store, matchId: string, playerId: string, paid: bool,
                               receiptUrl: Option<string>, now: Timestamp): (r: Result<(Store, Match), DbError>)
    ensures !HasMatch(store, matchId) ==> r == Failure(MatchNotFound(matchId))
    ensures forall k :: IsFirstMatch(store, k, matchId) ==>
      (forall i :: 0 <= i < |store[k].players| ==> store[k].players[i].id != playerId) ==>
      r == Failure(PlayerNotFound(playerId))
    ensures forall k, pi :: IsFirstMatch(store, k, matchId) && IsFirstPlayer(store[k].players, pi, playerId) ==>
      && r.Success?
      && r.value.0 == store[k := r.value.1]
      && PaymentRecorded(store[k], pi, paid, receiptUrl, now, r.value.1)
  {
    match FindIndex(store, (x: Match) => x.id == matchId)
    case None => Failure(MatchNotFound(matchId))
    case Some(k) =>
      assert forall k' :: IsFirstMatch(store, k', matchId) ==> k' == k;
      var m := store[k];
      match FindIndex(m.players, (p: Player) => p.id == playerId)
      case None => Failure(PlayerNotFound(playerId))
      case Some(pi) =>
        assert forall pi' :: IsFirstPlayer(m.players, pi', playerId) ==> pi' == pi;
        var players := m.players[pi := SetPayment(m.players[pi], paid, receiptUrl, now)];
        var updated := UpdateMatchStatus(m.(players := players), now);
        Success((store[k := updated], updated))
  }

  /** Whether `m` passes the filter of `getFilteredMatches`. */
  predicate Passes(filter: MatchFilter, playerId: Option<string>, m: Match) {
    match filter
    case AllMatches => true
    case PendingMatches => m.status == Pending
    case CompleteMatches => m.status == Complete
    case UnpaidByPlayer => !Truthy(playerId) || Owes(m, playerId.value)
  }

  /** `getFilteredMatches`: the stored matches that pass the filter, in stored
      order. Without a (non-empty) player id the unpaid-by-player filter keeps
      everything. */
  function GetFilteredMatches(store: Store, filter: MatchFilter, playerId: Option<string>): (r: seq<Match>)
    ensures IsSubsequence(r, store)
    ensures forall m: Match :: multiset(r)[m] == if Passes(filter, playerId, m) then multiset(store)[m] else 0
    ensures filter == PendingMatches ==> forall m :: m in r <==> m in store && m.status == Pending
    ensures filter == CompleteMatches ==> forall m :: m in r <==> m in store && m.status == Complete
    ensures filter == UnpaidByPlayer && Truthy(playerId) ==>
      forall m :: m in r <==> m in store && Owes(m, playerId.value)
    ensures filter == AllMatches || (filter == UnpaidByPlayer && !Truthy(playerId)) ==> r == store
  {
    if filter == AllMatches || (filter == UnpaidByPlayer && !Truthy(playerId)) then
      SubsequenceReflexive(store);
      store
    else
      var keep := (m: Match) => Passes(filter, playerId, m);
      FilterMultiset(store, keep);
      Filter(store, keep)
  }

  // ---------------------------------------------------------------------------
  // Properties relating the operations

  /** Creating a match under a fresh identifier and reading it back gives the
      stored match: same identity, cost, duration, Pix key and players. */
  lemma CreateThenGet(store: Store, m: Match, now: Timestamp)
    requires !HasMatch(store, m.id)
    ensures var (after, stored) := CreateMatch(store, m, now);
      && GetMatchById(after, m.id) == Some(stored)
      && stored.id == m.id && stored.courtCost == m.courtCost && stored.totalHours == m.totalHours
      && stored.pixKey == m.pixKey && stored.players == m.players
  {
  }

  /** Creation does not check identifiers: when one is taken, reading it back
      still finds the match that was there first. */
  lemma CreateWithTakenIdIsShadowed(store: Store, m: Match, now: Timestamp)
    requires HasMatch(store, m.id)
    ensures GetMatchById(CreateMatch(store, m, now).0, m.id) == GetMatchById(store, m.id)
  {
  }

  /** Deleting twice is deleting once. */
  lemma DeleteMatchIdempotent(store: Store, id: string)
    ensures DeleteMatch(DeleteMatch(store, id), id) == DeleteMatch(store, id)
  {
  }

  /** After a delete the match cannot be read, and recording a payment against
      it is rejected as an unknown match. */
  lemma DeleteThenGetAndPay(store: Store, id: string, playerId: string, paid: bool,
                            receiptUrl: Option<string>, now: Timestamp)
    ensures GetMatchById(DeleteMatch(store, id), id) == None
    ensures UpdatePlayerPayment(DeleteMatch(store, id), id, playerId, paid, receiptUrl, now)
            == Failure(MatchNotFound(id))
  {
  }

  /** Creating a match whose completion date and payment dates are consistent
      keeps every stored match settled. */
  lemma CreateMatchKeepsStoreSettled(store: Store, m: Match, now: Timestamp)
    requires StoreSettled(store)
    requires CompletionConsistent(m)
    requires forall i :: 0 <= i < |m.players| ==> PaymentConsistent(m.players[i])
    ensures StoreSettled(CreateMatch(store, m, now).0)
  {
  }

  /** Recording a payment keeps every stored match settled. */
  lemma UpdatePlayerPaymentKeepsStoreSettled(store: Store, matchId: string, playerId: string, paid: bool,
                                             receiptUrl: Option<string>, now: Timestamp)
    requires StoreSettled(store)
    requires UpdatePlayerPayment(store, matchId, playerId, paid, receiptUrl, now).Success?
    ensures StoreSettled(UpdatePlayerPayment(store, matchId, playerId, paid, receiptUrl, now).value.0)
  {
  }

  /** Marking a player unpaid reopens the match, in any store whose matches
      are complete exactly when they carry a completion date (settled or not):
      it is pending with no completion date, and the player has neither
      payment date nor receipt. */
  lemma UnpayingReopensMatch(store: Store, matchId: string, playerId: string,
                             receiptUrl: Option<string>, now: Timestamp)
    requires forall k :: 0 <= k < |store| ==> CompletionConsistent(store[k])
    requires UpdatePlayerPayment(store, matchId, playerId, false, receiptUrl, now).Success?
    ensures var updated := UpdatePlayerPayment(store, matchId, playerId, false, receiptUrl, now).value.1;
      && updated.status == Pending && updated.completionDate == None
      && exists i :: 0 <= i < |updated.players| && updated.players[i].id == playerId
           && !updated.players[i].paid && updated.players[i].paymentDate == None
           && updated.players[i].receiptUrl == None
  {
    var updated := UpdatePlayerPayment(store, matchId, playerId, false, receiptUrl, now).value.1;
    var k := FindIndex(store, (x: Match) => x.id == matchId).value;
    assert IsFirstMatch(store, k, matchId);
    var before := store[k];
    var pi := FindIndex(before.players, (p: Player) => p.id == playerId).value;
    assert IsFirstPlayer(before.players, pi, playerId);
    assert !AllPaid(updated.players) by {
      assert !updated.players[pi].paid;
    }
    assert updated.players[pi].id == playerId;
  }

  /** Every stored match is either pending or complete, so the two status
      filters split the store between them. */
  lemma StatusFiltersPartition(store: Store)
    ensures |GetFilteredMatches(store, PendingMatches, None)| + |GetFilteredMatches(store, CompleteMatches, None)| == |store|
  {
    FilterPartition(store, (m: Match) => Passes(PendingMatches, None, m),
                    (m: Match) => Passes(CompleteMatches, None, m));
  }

  /** After a successful update, reading the identifier back gives the match
      as updated, its status re-derived. */
  lemma UpdateThenGet(store: Store, m: Match, now: Timestamp)
    requires UpdateMatch(store, m, now).Success?
    ensures GetMatchById(UpdateMatch(store, m, now).value.0, m.id) == Some(UpdateMatchStatus(m, now))
  {
    var k := FindIndex(store, (x: Match) => x.id == m.id).value;
    assert IsFirstMatch(store, k, m.id);
    var after := UpdateMatch(store, m, now).value.0;
    assert IsFirstMatch(after, k, m.id);
  }

  /** Once a player whose identifier is unique in the match has paid, the
      match no longer shows up among that player's unpaid matches. */
  lemma PaidPlayerNoLongerOwes(store: Store, matchId: string, playerId: string,
                               receiptUrl: Option<string>, now: Timestamp)
    requires UpdatePlayerPayment(store, matchId, playerId, true, receiptUrl, now).Success?
    requires forall k :: 0 <= k < |store| && store[k].id == matchId ==>
      forall i, j :: 0 <= i < j < |store[k].players| ==> store[k].players[i].id != store[k].players[j].id
    ensures !Owes(UpdatePlayerPayment(store, matchId, playerId, true, receiptUrl, now).value.1, playerId)
  {
  }
}

=== FILE: jsbuiltins.dfy ===
/** The few JavaScript built-ins the payment logic depends on, over exact
    arithmetic: `Math.round`, rounding to two decimals the way the code does it
    (`Math.round(x * 100) / 100`), and `String.prototype.trim`. */
module JsBuiltins {

  /** `Math.round`: the nearest integer, halves rounded towards +infinity. */
  function Round(x: real): (r: int)
    ensures x - 0.5 < r as real <= x + 0.5
  {
    (x + 0.5).Floor
  }

  /** `Math.round(x * 100) / 100`: a whole number of cents, within half a cent of `x`. */
  function RoundCents(x: real): (r: real)
    ensures x - 0.005 < r <= x + 0.005
    ensures (r * 100.0).Floor as real == r * 100.0
  {
    Round(x * 100.0) as real / 100.0
  }

  /** The code points ECMAScript's `trim` removes: WhiteSpace (TAB, VT, FF, SP,
      NBSP, ZWNBSP and the Zs category) and LineTerminator (LF, CR, LS, PS). */
  predicate IsJsWhitespace(c: char) {
    || c == '\t' || c == '\U{000B}' || c == '\U{000C}' || c == ' '
    || c == '\U{00A0}' || c == '\U{FEFF}'
    || c == '\U{1680}' || ('\U{2000}' <= c <= '\U{200A}')
    || c == '\U{202F}' || c == '\U{205F}' || c == '\U{3000}'
    || c == '\n' || c == '\r' || c == '\U{2028}' || c == '\U{2029}'
  }

  /** True when every character of `s` is whitespace (so `!s.trim()` holds). */
  predicate IsBlank(s: string) {
    forall i :: 0 <= i < |s| ==> IsJsWhitespace(s[i])
  }

  function TrimStart(s: string): (r: string)
    ensures |r| <= |s| && r == s[|s| - |r|..]
    ensures |r| > 0 ==> !IsJsWhitespace(r[0])
    ensures IsBlank(s[..|s| - |r|])
    decreases |s|
  {
    if |s| > 0 && IsJsWhitespace(s[0]) then TrimStart(s[1..]) else s
  }

  function TrimEnd(s: string): (r: string)
    ensures |r| <= |s| && r == s[..|r|]
    ensures |r| > 0 ==> !IsJsWhitespace(r[|r| - 1])
    ensures IsBlank(s[|r|..])
    decreases |s|
  {
    if |s| > 0 && IsJsWhitespace(s[|s| - 1]) then TrimEnd(s[..|s| - 1]) else s
  }

  /** `String.prototype.trim`: `s` without its leading and trailing whitespace. */
  function Trim(s: string): (r: string)
    ensures |r| > 0 ==> !IsJsWhitespace(r[0]) && !IsJsWhitespace(r[|r| - 1])
  {
    TrimEnd(TrimStart(s))
  }

  /** `s.trim()` is the empty (falsy) string exactly when `s` is all whitespace. */
  lemma TrimEmptyIffBlank(s: string)
    ensures Trim(s) == "" <==> IsBlank(s)
  {
  }
}

=== FILE: newmatch.dfy ===
/** The pure parts of the new-match form: the validation applied before amounts
    are calculated or the match is saved, and the state updaters behind the
    duration buttons and the add, remove and edit-player actions. */
module NewMatch {
  import opened Wrappers
  import opened JsBuiltins
  import opened Seqs
  import opened Calculations

  /** The reasons `validateMatch` gives, one per message it can return. */
  datatype ValidationError =
    | CourtCostNotPositive
    | TotalHoursNotPositive
    | PixKeyMissing
    | NoPlayers
    | PlayerNameMissing
    | PlayerHoursNotPositive
    | PlayerHoursExceedTotal

  // ---------------------------------------------------------------------------
  // Validation

  /** The first complaint about one player, checked in the code's order:
      blank name, then non-positive hours, then more hours than the match lasts. */
  function PlayerError(p: Player, totalHours: real): Option<ValidationError> {
    if IsBlank(p.name) then Some(PlayerNameMissing)
    else if p.hoursPlayed <= 0.0 then Some(PlayerHoursNotPositive)
    else if p.hoursPlayed > totalHours then Some(PlayerHoursExceedTotal)
    else None
  }

  /** A match the form accepts: positive cost and duration, a non-blank Pix
      key, and at least one player, each named and with hours in (0, totalHours]. */
  predicate Valid(m: Match) {
    && m.courtCost > 0.0
    && m.totalHours > 0.0
    && !IsBlank(m.pixKey)
    && |m.players| > 0
    && forall i :: 0 <= i < |m.players| ==>
         !IsBlank(m.players[i].name) && 0.0 < m.players[i].hoursPlayed <= m.totalHours
  }

  /** `validateMatch`: `None` (the code's `null`) when the match is valid,
      otherwise the first failed check, the match-level checks in order and
      then the players in list order. */
  method ValidateMatch(m: Match) returns (r: Option<ValidationError>)
    ensures r == None <==> Valid(m)
    ensures m.courtCost <= 0.0 ==> r == Some(CourtCostNotPositive)
    ensures m.courtCost > 0.0 && m.totalHours <= 0.0 ==> r == Some(TotalHoursNotPositive)
    ensures m.courtCost > 0.0 && m.totalHours > 0.0 && IsBlank(m.pixKey) ==> r == Some(PixKeyMissing)
    ensures m.courtCost > 0.0 && m.totalHours > 0.0 && !IsBlank(m.pixKey) && |m.players| == 0 ==>
      r == Some(NoPlayers)
    ensures m.courtCost > 0.0 && m.totalHours > 0.0 && !IsBlank(m.pixKey) && r.Some? && |m.players| > 0 ==>
      exists k :: 0 <= k < |m.players| && r == PlayerError(m.players[k], m.totalHours)
        && forall j :: 0 <= j < k ==> PlayerError(m.players[j], m.totalHours) == None
  {
    if m.courtCost <= 0.0 {
      return Some(CourtCostNotPositive);
    }
    if m.totalHours <= 0.0 {
      return Some(TotalHoursNotPositive);
    }
    TrimEmptyIffBlank(m.pixKey);
    if Trim(m.pixKey) == "" {
      return Some(PixKeyMissing);
    }
    if |m.players| == 0 {
      return Some(NoPlayers);
    }
    for i := 0 to |m.players|
      invariant forall j :: 0 <= j < i ==> PlayerError(m.players[j], m.totalHours) == None
    {
      var p := m.players[i];
      TrimEmptyIffBlank(p.name);
      if Trim(p.name) == "" {
        assert PlayerError(m.players[i], m.totalHours) == Some(PlayerNameMissing);
        return Some(PlayerNameMissing);
      }
      if p.hoursPlayed <= 0.0 {
        assert PlayerError(m.players[i], m.totalHours) == Some(PlayerHoursNotPositive);
        return Some(PlayerHoursNotPositive);
      }
      if p.hoursPlayed > m.totalHours {
        assert PlayerError(m.players[i], m.totalHours) == Some(PlayerHoursExceedTotal);
        return Some(PlayerHoursExceedTotal);
      }
    }
    assert Valid(m) by {
      forall j | 0 <= j < |m.players|
        ensures !IsBlank(m.players[j].name) && 0.0 < m.players[j].hoursPlayed <= m.totalHours
      {
        assert PlayerError(m.players[j], m.totalHours) == None;
      }
    }
    return None;
  }

  /** Positive hours add up to a positive total. */
  lemma {:induction false} PositiveHoursSum(players: seq<Player>)
    requires |players| > 0
    requires forall i :: 0 <= i < |players| ==> players[i].hoursPlayed > 0.0
    ensures TotalPlayerHours(players) > 0.0
    decreases |players|
  {
    if |players| > 1 {
      PositiveHoursSum(players[1..]);
    }
  }

  /** A valid match has positive total player hours, so calculating its amounts
      takes the proportional branch and gives every player an amount. */
  lemma ValidMatchGetsAmounts(m: Match)
    requires Valid(m)
    ensures TotalPlayerHours(m.players) > 0.0
    ensures forall i :: 0 <= i < |m.players| ==> CalculatePlayerAmounts(m).players[i].amount.Some?
  {
    PositiveHoursSum(m.players);
  }

  // ---------------------------------------------------------------------------
  // Duration buttons

  /** The new duration after pressing + (half an hour more) or - (half an
      hour less, but never under half an hour). */
  function NextTotalHours(current: real, increment: bool): (r: real)
    ensures increment ==> r == current + 0.5
    ensures !increment ==> 0.5 <= r && current - 0.5 <= r && (r == 0.5 || r == current - 0.5)
  {
    if increment then current + 0.5
    else if current - 0.5 < 0.5 then 0.5 else current - 0.5
  }

  /** Caps every player's hours at `limit` (`Math.min(hoursPlayed, limit)`). */
  function ClampPlayers(players: seq<Player>, limit: real): (r: seq<Player>)
    ensures |r| == |players|
    ensures forall i :: 0 <= i < |players| ==> r[i].hoursPlayed <= limit
    ensures forall i :: 0 <= i < |players| && players[i].hoursPlayed <= limit ==> r[i] == players[i]
    ensures forall i :: 0 <= i < |players| && players[i].hoursPlayed > limit ==>
      r[i] == players[i].(hoursPlayed := limit)
  {
    seq(|players|, i requires 0 <= i < |players| =>
      if players[i].hoursPlayed <= limit then players[i] else players[i].(hoursPlayed := limit))
  }

  /** `handleTotalHoursChange`: moves the duration by half an hour and caps
      every player's hours at the new duration. */
  function HandleTotalHoursChange(m: Match, increment: bool): (r: Match)
    ensures r.totalHours == NextTotalHours(m.totalHours, increment)
    ensures r.(totalHours := m.totalHours, players := m.players) == m
    ensures |r.players| == |m.players|
    ensures forall i :: 0 <= i < |r.players| ==> r.players[i].hoursPlayed <= r.totalHours
    ensures forall i :: 0 <= i < |m.players| && m.players[i].hoursPlayed <= r.totalHours ==>
      r.players[i] == m.players[i]
    ensures forall i :: 0 <= i < |m.players| && m.players[i].hoursPlayed > r.totalHours ==>
      r.players[i].hoursPlayed == r.totalHours
    ensures forall i :: 0 <= i < |m.players| ==>
      r.players[i] == m.players[i].(hoursPlayed := r.players[i].hoursPlayed)
  {
    var newHours := NextTotalHours(m.totalHours, increment);
    m.(totalHours := newHours, players := ClampPlayers(m.players, newHours))
  }

  /** Pressing + then - on a duration of at least half an hour, whose players
      are all within it, restores the match exactly. */
  lemma IncrementThenDecrementRestores(m: Match)
    requires m.totalHours >= 0.5
    requires forall i :: 0 <= i < |m.players| ==> m.players[i].hoursPlayed <= m.totalHours
    ensures HandleTotalHoursChange(HandleTotalHoursChange(m, true), false) == m
  {
  }

  // ---------------------------------------------------------------------------
  // Adding, removing and editing players

  /** `handleAddPlayer`: appends a default new player (no name, one hour). */
  function HandleAddPlayer(m: Match, newId: string): (r: Match)
    ensures r.(players := m.players) == m
    ensures |r.players| == |m.players| + 1 && r.players[..|m.players|] == m.players
    ensures var p := r.players[|m.players|];
      && p.id == newId && p.name == "" && p.hoursPlayed == 1.0 && !p.paid
      && p.paymentDate == None && p.receiptUrl == None && p.amount == None
  {
    m.(players := m.players + [CreateNewPlayer(newId, DefaultPlayerName, DefaultHoursPlayed)])
  }

  /** `handleRemovePlayer`: drops every player with identifier `id`, keeping
      the others in order. */
  function HandleRemovePlayer(m: Match, id: string): (r: Match)
    ensures r.(players := m.players) == m
    ensures IsSubsequence(r.players, m.players)
    ensures forall p :: p in r.players <==> p in m.players && p.id != id
    ensures forall p: Player :: p.id != id ==> multiset(r.players)[p] == multiset(m.players)[p]
  {
    FilterMultiset(m.players, (p: Player) => p.id != id);
    m.(players := Filter(m.players, (p: Player) => p.id != id))
  }

  /** A player added under a fresh identifier and then removed leaves the
      match as it was. */
  lemma AddThenRemoveRestores(m: Match, newId: string)
    requires forall i :: 0 <= i < |m.players| ==> m.players[i].id != newId
    ensures HandleRemovePlayer(HandleAddPlayer(m, newId), newId) == m
  {
    var keep := (p: Player) => p.id != newId;
    var added := CreateNewPlayer(newId, DefaultPlayerName, DefaultHoursPlayed);
    FilterAppend(m.players, added, keep);
    FilterAllKept(m.players, keep);
  }

  /** The field a player edit sets, with its new value. */
  datatype PlayerEdit =
    | SetId(newId: string)
    | SetName(newName: string)
    | SetHoursPlayed(newHours: real)
    | SetPaid(newPaid: bool)
    | SetPaymentDate(newPaymentDate: Option<Timestamp>)
    | SetReceiptUrl(newReceiptUrl: Option<string>)
    | SetAmount(newAmount: Option<real>)

  /** `{ ...player, [field]: value }`. */
  function ApplyEdit(p: Player, e: PlayerEdit): Player {
    match e
    case SetId(v) => p.(id := v)
    case SetName(v) => p.(name := v)
    case SetHoursPlayed(v) => p.(hoursPlayed := v)
    case SetPaid(v) => p.(paid := v)
    case SetPaymentDate(v) => p.(paymentDate := v)
    case SetReceiptUrl(v) => p.(receiptUrl := v)
    case SetAmount(v) => p.(amount := v)
  }

  /** `handlePlayerChange`: applies the edit to every player with identifier
      `playerId`; the other players and the match's own fields stay as they are. */
  function HandlePlayerChange(m: Match, playerId: string, e: PlayerEdit): (r: Match)
    ensures r.(players := m.players) == m
    ensures |r.players| == |m.players|
    ensures forall i :: 0 <= i < |m.players| && m.players[i].id == playerId ==>
      r.players[i] == ApplyEdit(m.players[i], e)
    ensures forall i :: 0 <= i < |m.players| && m.players[i].id != playerId ==> r.players[i] == m.players[i]
  {
    var players := seq(|m.players|, i requires 0 <= i < |m.players| =>
      if m.players[i].id == playerId then ApplyEdit(m.players[i], e) else m.players[i]);
    m.(players := players)
  }

  /** Editing a player that is not in the match changes nothing. */
  lemma PlayerChangeOfAbsentPlayer(m: Match, playerId: string, e: PlayerEdit)
    requires forall i :: 0 <= i < |m.players| ==> m.players[i].id != playerId
    ensures HandlePlayerChange(m, playerId, e) == m
  {
  }

  /** Making the same edit twice is making it once, even an edit of the
      identifier: the renamed players no longer match the second time. */
  lemma PlayerChangeIdempotent(m: Match, playerId: string, e: PlayerEdit)
    ensures HandlePlayerChange(HandlePlayerChange(m, playerId, e), playerId, e) == HandlePlayerChange(m, playerId, e)
  {
  }

  /** A freshly added player has not paid, so deriving the status afterwards
      always leaves the match pending. */
  lemma AddedPlayerKeepsMatchPending(m: Match, newId: string, now: Timestamp)
    ensures UpdateMatchStatus(HandleAddPlayer(m, newId), now).status == Pending
  {
  }
}

=== FILE: scenarios.dfy ===
/** A scenario for the repository on fixed data: a match is created
    with its amounts calculated, both players pay, and the status filters see
    the match move from pending to complete. */
module Scenarios {
  import opened Wrappers
  import opened Calculations
  import opened DbService
  import opened NewMatch

  /** A court costing 100 shared by a player who stayed one hour and one who
      stayed three. */
  function SampleMatch(date: Timestamp): Match {
    var a := CreateNewPlayer("a", "Ana", 1.0);
    var b := CreateNewPlayer("b", "Bia", 3.0);
    Match("m", 100.0, 4.0, date, "pix", [a, b], Pending, None)
  }

  /** The hours split the cost 25 / 75. */
  lemma SampleSplit(date: Timestamp)
    ensures CalculatePlayerAmounts(SampleMatch(date)).players[0].amount == Some(25.0)
    ensures CalculatePlayerAmounts(SampleMatch(date)).players[1].amount == Some(75.0)
  {
  }

  /** Recording a payment for player `pid` at position `pi` of the only
      stored match succeeds and leaves a one-match store. */
  lemma PayInSingleStore(m: Match, pi: nat, pid: string, receiptUrl: Option<string>, now: Timestamp)
    requires pi < |m.players| && IsFirstPlayer(m.players, pi, pid)
    ensures var r := UpdatePlayerPayment([m], m.id, pid, true, receiptUrl, now);
      && r.Success? && r.value.0 == [r.value.1]
      && PaymentRecorded(m, pi, true, receiptUrl, now, r.value.1)
  {
  }

  /** The sample's shape after every step: match "m" with players "a" then "b". */
  predicate SampleShape(m: Match) {
    m.id == "m" && |m.players| == 2 && m.players[0].id == "a" && m.players[1].id == "b"
  }

  /** Saving the calculated sample stores it, pending, as the only match. */
  lemma SampleCreatedPending(date: Timestamp, t0: Timestamp)
    ensures var (s1, created) := CreateMatch([], CalculatePlayerAmounts(SampleMatch(date)), t0);
      && s1 == [created] && created.status == Pending && SampleShape(created)
      && !created.players[1].paid
  {
    var calculated := CalculatePlayerAmounts(SampleMatch(date));
    assert !calculated.players[0].paid;
  }

  /** When "a" pays, "b" still owes, so the match stays pending. */
  lemma FirstPaymentKeepsPending(m: Match, t1: Timestamp)
    requires SampleShape(m) && !m.players[1].paid
    ensures var r := UpdatePlayerPayment([m], "m", "a", true, None, t1);
      && r.Success? && r.value.0 == [r.value.1] && r.value.1.status == Pending
      && SampleShape(r.value.1) && r.value.1.players[0].paid
  {
    PayInSingleStore(m, 0, "a", None, t1);
    var after := UpdatePlayerPayment([m], "m", "a", true, None, t1).value.1;
    assert !after.players[1].paid;
  }

  /** When "b" pays as well, the pending match completes, stamped `t2`. */
  lemma SecondPaymentCompletes(m: Match, t2: Timestamp)
    requires SampleShape(m) && m.players[0].paid && m.status == Pending
    ensures var r := UpdatePlayerPayment([m], "m", "b", true, Some("receipt"), t2);
      && r.Success? && r.value.0 == [r.value.1]
      && r.value.1.status == Complete && r.value.1.completionDate == Some(t2)
  {
    PayInSingleStore(m, 1, "b", Some("receipt"), t2);
    var after := UpdatePlayerPayment([m], "m", "b", true, Some("receipt"), t2).value.1;
    assert AllPaid(after.players);
  }

  /** A store holding one complete match: only the complete filter returns it. */
  lemma CompleteMatchFilters(m: Match)
    requires m.status == Complete
    ensures GetFilteredMatches([m], CompleteMatches, None) == [m]
    ensures GetFilteredMatches([m], PendingMatches, None) == []
  {
    assert GetFilteredMatches([m], PendingMatches, None) == [] by {
      assert forall x :: x in GetFilteredMatches([m], PendingMatches, None) ==> x == m;
    }
  }

  /** The stored match is pending until both have paid; then it is complete,
      stamped with the time of the last payment, and only the complete filter
      returns it. */
  lemma SplitAndSettle(date: Timestamp, t0: Timestamp, t1: Timestamp, t2: Timestamp)
    ensures var (s1, created) := CreateMatch([], CalculatePlayerAmounts(SampleMatch(date)), t0);
      && created.status == Pending
      && var r2 := UpdatePlayerPayment(s1, "m", "a", true, None, t1);
      && r2.Success? && r2.value.1.status == Pending
      && var r3 := UpdatePlayerPayment(r2.value.0, "m", "b", true, Some("receipt"), t2);
      && r3.Success? && r3.value.1.status == Complete && r3.value.1.completionDate == Some(t2)
      && GetFilteredMatches(r3.value.0, CompleteMatches, None) == [r3.value.1]
      && GetFilteredMatches(r3.value.0, PendingMatches, None) == []
  {
    var (s1, created) := CreateMatch([], CalculatePlayerAmounts(SampleMatch(date)), t0);
    SampleCreatedPending(date, t0);
    FirstPaymentKeepsPending(created, t1);
    var m2 := UpdatePlayerPayment(s1, "m", "a", true, None, t1).value.1;
    SecondPaymentCompletes(m2, t2);
    var m3 := UpdatePlayerPayment([m2], "m", "b", true, Some("receipt"), t2).value.1;
    CompleteMatchFilters(m3);
  }

  /** Ticking a player's paid box in the new-match form goes through the
      generic player edit, which sets `paid` without a payment date; saving
      then stores a match whose player is paid but undated, so the store is
      not settled. */
  lemma PreTickedPaymentUnsettlesStore(id: string, playerId: string, now: Timestamp, savedAt: Timestamp)
    ensures var form := HandlePlayerChange(HandleAddPlayer(CreateNewMatch(id, now), playerId), playerId, SetPaid(true));
      var store := CreateMatch([], CalculatePlayerAmounts(form), savedAt).0;
      && |store| == 1 && |store[0].players| == 1
      && store[0].players[0].paid && store[0].players[0].paymentDate == None
      && !StoreSettled(store)
      && CompletionConsistent(store[0])
  {
    var added := HandleAddPlayer(CreateNewMatch(id, now), playerId);
    assert |added.players| == 1 && added.players[0].id == playerId && added.players[0].paymentDate == None;
    var form := HandlePlayerChange(added, playerId, SetPaid(true));
    assert form.players[0] == added.players[0].(paid := true);
    var calculated := CalculatePlayerAmounts(form);
    assert calculated.players[0].paid && calculated.players[0].paymentDate == None;
    var store := CreateMatch([], calculated, savedAt).0;
    assert store[0].players == calculated.players;
    assert !PaymentConsistent(store[0].players[0]);
  }
}

=== FILE: seqs.dfy ===
/** Order-preserving selection over sequences: the semantics of JavaScript's
    `Array.prototype.filter`, used by the store's delete and query operations
    and by the form's player removal. */
module Seqs {
  import opened Wrappers

  /** `arr.findIndex(p)`, with `None` for JavaScript's -1: the position of the
      first element satisfying `p`. */
  function FindIndex<T>(s: seq<T>, p: T -> bool): (r: Option<nat>)
    ensures r.None? <==> forall j :: 0 <= j < |s| ==> !p(s[j])
    ensures r.Some? ==> r.value < |s| && p(s[r.value]) && forall j :: 0 <= j < r.value ==> !p(s[j])
    decreases |s|
  {
    if |s| == 0 then None
    else if p(s[0]) then Some(0)
    else
      match FindIndex(s[1..], p)
      case None => None
      case Some(k) => Some(k + 1)
  }

  /** `sub` can be obtained from `s` by deleting elements, without reordering. */
  predicate IsSubsequence<T(==)>(sub: seq<T>, s: seq<T>)
    decreases |s|
  {
    if |sub| == 0 then true
    else if |s| == 0 then false
    else if sub[0] == s[0] then IsSubsequence(sub[1..], s[1..])
    else IsSubsequence(sub, s[1..])
  }

  /** Every sequence is a subsequence of itself. */
  lemma {:induction false} SubsequenceReflexive<T>(s: seq<T>)
    ensures IsSubsequence(s, s)
    decreases |s|
  {
    if |s| > 0 {
      SubsequenceReflexive(s[1..]);
    }
  }

  /** `arr.filter(keep)`: the elements of `s` satisfying `keep`, in their order. */
  function Filter<T(==,!new)>(s: seq<T>, keep: T -> bool): (r: seq<T>)
    ensures |r| <= |s|
    ensures forall x :: x in r <==> x in s && keep(x)
    ensures IsSubsequence(r, s)
    decreases |s|
  {
    if |s| == 0 then []
    else
      assert s == [s[0]] + s[1..];
      var rest := Filter(s[1..], keep);
      if keep(s[0]) then [s[0]] + rest else rest
  }

  /** Filtering keeps every passing element as often as it occurs, and drops
      every other one. */
  lemma {:induction false} FilterMultiset<T(!new)>(s: seq<T>, keep: T -> bool)
    ensures forall x :: multiset(Filter(s, keep))[x] == if keep(x) then multiset(s)[x] else 0
    decreases |s|
  {
    if |s| > 0 {
      FilterMultiset(s[1..], keep);
      assert s == [s[0]] + s[1..];
    }
  }

  /** A sequence whose elements all pass is its own filter. */
  lemma {:induction false} FilterAllKept<T(!new)>(s: seq<T>, keep: T -> bool)
    requires forall i :: 0 <= i < |s| ==> keep(s[i])
    ensures Filter(s, keep) == s
    decreases |s|
  {
    if |s| > 0 {
      FilterAllKept(s[1..], keep);
      assert s == [s[0]] + s[1..];
    }
  }

  /** Filtering by a predicate and by its negation splits a sequence in two. */
  lemma {:induction false} FilterPartition<T(!new)>(s: seq<T>, keep: T -> bool, drop: T -> bool)
    requires forall x :: drop(x) == !keep(x)
    ensures |Filter(s, keep)| + |Filter(s, drop)| == |s|
    decreases |s|
  {
    if |s| > 0 {
      FilterPartition(s[1..], keep, drop);
    }
  }

  /** Filtering distributes over appending one element. */
  lemma {:induction false} FilterAppend<T(!new)>(s: seq<T>, x: T, keep: T -> bool)
    ensures Filter(s + [x], keep) == Filter(s, keep) + (if keep(x) then [x] else [])
    decreases |s|
  {
    var t := s + [x];
    if |s| == 0 {
      assert t == [x];
      assert t[1..] == [];
    } else {
      assert t[0] == s[0];
      assert t[1..] == s[1..] + [x];
      FilterAppend(s[1..], x, keep);
      var head := if keep(s[0]) then [s[0]] else [];
      assert Filter(t, keep) == head + Filter(t[1..], keep);
      assert Filter(s, keep) == head + Filter(s[1..], keep);
    }
  }
}

=== FILE: wrappers.dfy ===
/** Optional values and error-or-value results.

    `Option` stands for a TypeScript optional field (`x?: T`): both an absent
    key and an explicit `undefined` are `None`. `Result` stands for an async
    operation that either resolves with a value or rejects with an error. */
module Wrappers {

  datatype Option<+T> = None | Some(value: T) {

    /** The wrapped value, or `default` when there is none. */
    function GetOr(default: T): T {
      match this
      case Some(v) => v
      case None => default
    }
  }

  datatype Result<+R, +E> = Success(value: R) | Failure(error: E)
}
